=== FILE: README.md ===
# Data ingestion stage: a Dafny model

This project models the data-ingestion stage of a sentiment-classification
pipeline: its configuration object (`src/config.py`) and the stage itself
(`src/data/data_ingestion.py`).

A run of `main` works as follows:

1. It reads `ENVIRONMENT`. The value `local` selects a fixed public CSV.
   Every other value, unset and empty included, selects object storage. An
   unset or empty value also logs a warning.
2. For object storage it first reads `AWS_ACCESS_KEY` and `AWS_SECRET_KEY`.
   Each accessor raises when its variable is unset or empty.
3. It builds a client from the params document's `bucket.name` and
   `bucket.region` and the two secrets. It then fetches the object named by
   `file_name`.
4. It keeps the rows whose `sentiment` is exactly `positive` or `negative`.
   It recodes those labels to 1 and 0.
5. It splits the result with the configured `data_ingestion.test_size` and
   seed 42. It then writes `./data/raw/train.csv` and `./data/raw/test.csv`.

The first exception ends the run. The top-level handler catches it and does
not re-raise it.

Modules:

- `Results` (`results.dfy`): `Option` and `Result`.
- `Errors` (`errors.dfy`): the exceptions the code raises. These are a
  missing or empty secret (`ValueError`), a missing params key
  (`KeyError`), subscripting a non-mapping (`TypeError`), a missing column
  (`KeyError`), and the never-raised credentials message. A collaborator's
  exception passes through as `Raised(message)`.
- `Config` (`config.dfy`):
  - the params document as a YAML value tree, and the environment as a map;
  - the secret and environment accessors, the strict params accessors, and
    `get_param`.
- `Frames` (`frames.dfy`): a data frame as column names plus rows keyed by
  column, with the invariant that column names are distinct and every row
  has exactly the frame's columns.
- `DataIngestion` (`data_ingestion.dfy`): `preprocess_data`, the paths
  `save_data` builds, and `main`.
  - Every foreign collaborator is an opaque function-valued field of
    `Services`, which either answers or raises. These are CSV download,
    the S3 connection, the S3 fetch, `train_test_split`, `os.makedirs` and
    `to_csv`.
  - A run returns a `Report`: whether it warned, the ordered trace of
    foreign calls it made, and the stage and exception that ended it, if
    any.
- `PreprocessProperties` (`preprocess_properties.dfy`): `preprocess_data`
  against an independent reference: the increasing list of kept
  positions.
- `MainProperties` (`main_properties.dfy`): whole-run properties of `main`.

`get_param` is compared with the strict chain `params[k0][k1]...`
(`Config.Index`). That is what the dedicated accessors such as
`s3_bucket_name` evaluate.

Three behaviours of the code are worth stating plainly:

- The only exceptions raised by the stage's own code are `ValueError`
  (a missing or empty secret), `KeyError` (a missing params key or a
  missing `sentiment` column) and `TypeError` (subscripting a params value
  that is not a mapping). Exceptions from the collaborators pass through
  unchanged.
- The message "AWS credentials are not set" at
  `src/data/data_ingestion.py:64` can never be produced. The condition on
  line 63 calls the accessors, and they raise "... not found in
  environment" themselves for an unset or empty secret
  (`MainProperties.CredentialsCheckUnreachable`).
- `save_data` writes `train.csv` before `test.csv`, so a failure writing
  the second file leaves the first one written (`DataIngestion.SaveData`).

## Model

| member | source | states |
|---|---|---|
| Config.RequireSecret | src/config.py:22-33 | a secret accessor succeeds exactly when the variable is set to a non-empty string, returns that string, and otherwise raises naming the variable |
| Config.AwsAccessKey | src/config.py:22-26 | `aws_access_key` returns `AWS_ACCESS_KEY` exactly when it is set and non-empty, and raises otherwise |
| Config.AwsSecretKey | src/config.py:29-33 | `aws_secret_key` returns `AWS_SECRET_KEY` exactly when it is set and non-empty, and raises otherwise |
| Config.S3Bucket | src/config.py:36-37 | `s3_bucket` returns the variable whenever it is present, even empty, and the hard-coded bucket only when it is absent |
| Config.Environment | src/config.py:40-44 | `environment` never raises, returns the raw value or none, and warns exactly when that value is unset or empty |
| Config.Nested | src/config.py:62-63 | `params[outer][inner]` succeeds exactly when both levels are mappings holding the keys and returns the stored value, even null; a non-mapping document raises `TypeError` and a missing outer key `KeyError` |
| Config.S3BucketName | src/config.py:61-63 | `s3_bucket_name` succeeds exactly when `bucket` is a mapping holding `name`, and then returns the stored value |
| Config.AwsRegion | src/config.py:65-67 | `aws_region` succeeds exactly when `bucket` is a mapping holding `region`, and then returns the stored value |
| Config.TestSize | src/config.py:85-87 | `test_size` succeeds exactly when `data_ingestion` is a mapping holding `test_size`, and then returns the stored value |
| Config.FileName | src/config.py:89-91 | `file_name` succeeds exactly when the document is a mapping with that key; otherwise it raises `TypeError` or `KeyError` |
| Config.GetParam | src/config.py:93-101 | `get_param` equals the strict subscript chain along the keys, with every raised exception and a null result replaced by the default |
| Config.GetParamWithoutKeys | src/config.py:93-101 | with no keys, the whole document is returned, or the default when the document is null |
| Config.GetParamFallsBack | src/config.py:96-100 | once the keys consumed so far reach a non-mapping, or a mapping without the next key, the default is returned |
| Config.GetParamReturnsPresentValue | src/config.py:98-101 | a non-null value stored at the path comes back unchanged |
| Config.GetParamOnlyReplacesNull | src/config.py:101 | any result other than the default is non-null and is exactly the value stored at the path |
| Config.GetParamKeepsFalsyValues | src/config.py:101 | illustration of `Config.GetParamKeepsFalsy` on one-key documents: `0`, `False` and `""` are returned as stored, while null falls back |
| Config.GetParamKeepsFalsy | src/config.py:101 | any falsy non-null value stored at the path (`0`, `False`, `""`, an empty list or mapping) comes back unchanged |
| Config.GetParamAgreesWithS3BucketName | src/config.py:93-101 | `get_param('bucket', 'name')` agrees with `s3_bucket_name` when that finds a non-null value, and gives the default when it raises |
| DataIngestion.SelectKept | src/data/data_ingestion.py:33 | the mask keeps only rows labelled exactly "positive" or "negative", drawn from the input |
| DataIngestion.PreprocessData | src/data/data_ingestion.py:28-42 | raises `KeyError` exactly when there is no `sentiment` column; otherwise it keeps the columns, never grows the frame, and every output row has label 1 or 0 |
| DataIngestion.SaveData | src/data/data_ingestion.py:44-54 | the calls are the directory, the train file and the test file, in that order; a raising `makedirs` ends it after one call and a raising train write after two, each with that exception; it succeeds exactly when all three calls succeed |
| DataIngestion.SelectSource | src/data/data_ingestion.py:60 | the public CSV is chosen exactly when `ENVIRONMENT` is `local` |
| DataIngestion.AcquireRemote | src/data/data_ingestion.py:62-66 | the remote branch never fails with the credentials message; its first call is the connection, and a success ends with the fetch |
| DataIngestion.Acquire | src/data/data_ingestion.py:60-66 | acquisition makes only acquisition calls and never fails with the credentials message |
| DataIngestion.DataPathLayout | src/data/data_ingestion.py:71 | `main` writes `./data/raw/train.csv` and `./data/raw/test.csv` |
| DataIngestion.SplitAndSave | src/data/data_ingestion.py:70-71 | the split at seed 42 comes first and the save follows; a failure comes from a collaborator, and a success makes four calls ending in the two files |
| DataIngestion.ProcessAcquired | src/data/data_ingestion.py:69-71 | after acquisition, stages run in order, a failure comes from a later stage, and a success ends with the split and the two writes |
| DataIngestion.Main | src/data/data_ingestion.py:56-74 | `main` warns exactly when `ENVIRONMENT` is unset or empty, its calls are in stage order, and no call after the failing stage is made |
| PreprocessProperties.SelectKeptPicks | src/data/data_ingestion.py:33 | the selection is the rows at an increasing list of positions covering every kept row |
| PreprocessProperties.PreprocessSelectsAndRecodes | src/data/data_ingestion.py:33-34 | the output rows are the kept input rows, in input order, each recoded (positive to 1, negative to 0) with every other cell unchanged |
| PreprocessProperties.PreprocessCount | src/data/data_ingestion.py:33 | the output has exactly as many rows as the input has rows labelled "positive" or "negative" |
| PreprocessProperties.SelectNothing | src/data/data_ingestion.py:33 | when no row is labelled "positive" or "negative", nothing is kept |
| PreprocessProperties.PreprocessTwiceKeepsNothing | src/data/data_ingestion.py:33-34 | preprocessing its own output keeps no rows, since recoded labels are numbers |
| PreprocessProperties.RecodeExampleRow | src/data/data_ingestion.py:34 | for a `{text, sentiment}` row of the worked example, recoding replaces only the label cell (helper of `PreprocessProperties.PreprocessExample`) |
| PreprocessProperties.PreprocessExample | src/data/data_ingestion.py:33-34 | labels positive, negative and neutral give two rows, labelled 1 and 0, with text unchanged |
| MainProperties.SavePathLayout | src/data/data_ingestion.py:47-50 | for any data path, the directory is `<data_path>/raw` without a doubled separator, both files lie directly in it, and they differ |
| MainProperties.MainSteps | src/data/data_ingestion.py:56-74 | unfolding lemma used by the whole-run proofs: `main` is acquisition, then (only on success) the remaining stages, and the warning depends on the environment alone |
| MainProperties.MainSavesUnderDataRaw | src/data/data_ingestion.py:69-71 | a run without exception ends by splitting at the configured test size and seed 42, then creating `./data/raw` and writing train and test there |
| MainProperties.CredentialsCheckUnreachable | src/data/data_ingestion.py:63-64 | the credentials message is never what ends a run |
| MainProperties.LocalReadsFixedUrl | src/data/data_ingestion.py:60-61 | with `local`, the first call reads the fixed URL and object storage is never contacted |
| MainProperties.LocalIgnoresCredentials | src/data/data_ingestion.py:60-61 | with `local`, the rest of the environment, secrets included, makes no difference |
| MainProperties.RemoteWithoutAccessKeyFails | src/data/data_ingestion.py:63 | outside `local`, an unset or empty access key ends the run with the accessor's error before any call |
| MainProperties.RemoteWithoutSecretKeyFails | src/data/data_ingestion.py:63 | outside `local`, an unset or empty secret key ends the run with the accessor's error before any call |
| MainProperties.RemoteCallsNeedBothSecrets | src/data/data_ingestion.py:62-66 | outside `local`, any foreign call implies that both secrets are set and non-empty |
| MainProperties.RemoteConnectsWithParamsBucket | src/data/data_ingestion.py:65-66 | the connection uses the params bucket name and region with the two secrets, and the fetch uses `file_name` |
| MainProperties.MainIgnoresBucketVariable | src/data/data_ingestion.py:65 | removing `S3_BUCKET_NAME` from the environment changes nothing about a run |
| MainProperties.UnsetEnvironmentWarnsAndGoesRemote | src/data/data_ingestion.py:60-66 | with `ENVIRONMENT` unset the run warns, and it either fails before any call or starts by connecting to object storage |
| MainProperties.EarlyFailureSavesNothing | src/data/data_ingestion.py:69-74 | a run that fails before the save stage neither creates the directory nor writes a file |
| MainProperties.MissingColumnStopsBeforeSplit | src/data/data_ingestion.py:69 | an acquired table without `sentiment` ends the run in preprocessing, with nothing split or written |
| MainProperties.SplitPartsAreBinary | src/data/data_ingestion.py:70 | a partitioning splitter applied to binary-labelled rows gives binary-labelled parts |
| MainProperties.SaveDataWritesOnly | src/data/data_ingestion.py:49-50 | `save_data` writes only the two tables it is given |
| MainProperties.SplitAndSaveWritesParts | src/data/data_ingestion.py:70-71 | after the split, only its two parts are written |
| MainProperties.ProcessAcquiredSplitsPreprocessed | src/data/data_ingestion.py:69-71 | the split receives the preprocessed table and the configured test size; if either is missing, no call is made |
| MainProperties.SavedRowsPartitionPreprocessed | src/data/data_ingestion.py:70-71 | with a partitioning splitter, the two written files hold, between them, exactly the preprocessed rows with the original columns |
| MainProperties.WrittenRowsAreBinary | src/data/data_ingestion.py:70-71 | with a partitioning splitter, every written table has only labels 1 and 0 |

## Left out

- Loading `params.yaml` and `.env` (`Config.__init__`): the params document
  and the environment are inputs to every operation.
- Logging and `print`. The only logged fact kept is whether `environment`
  warned.
- `load_data`: `pd.read_csv` is the opaque `readCsv` collaborator. Its
  logging-and-re-raise wrapper changes nothing.
- The S3 client (`src/connection`) is not part of this model. Its
  constructor is the opaque `connectS3` collaborator and its fetch is the
  opaque `fetchFromS3`. The constructor is modelled as a call that may
  raise, because `file_name` is read after it.
- `train_test_split` is the opaque `split` collaborator. That it partitions
  its input is a hypothesis of the lemmas that need it
  (`MainProperties.SplitPartitions`), not a property of the model.
- `os.makedirs` and `to_csv` are opaque collaborators. File contents, CSV
  formatting and `index=False` are not modelled.
- `os.path.join` is modelled for POSIX separators only.
- The secret accessors are evaluated once. Line 65 evaluates them a second
  time, but the environment is fixed during a run, so the result is the
  same.
- `dagshub_token`, `dagshub_username`, `mlflow_tracking_uri`,
  `mlflow_owner`, `mlflow_repo_name`, `max_features` and
  `set_dagshub_mlflow` are not part of the ingestion stage.
- Params keys are strings. YAML documents with non-string keys are not
  represented.
- `Config.Value` has no node for the other values a YAML safe-load can
  produce: dates, timestamps, `!!binary` and `!!set`. None of the accessors
  modelled here treats them differently from any other non-mapping, non-null
  value.
- Pandas details are not modelled: dtypes, the index, and the
  chained-assignment warning on line 34.
- DataIngestion.PreprocessData: its own contract states only the shape and
  the binary labels. The full order-preserving statement is
  `PreprocessProperties.PreprocessSelectsAndRecodes` and
  `PreprocessProperties.PreprocessCount`.

=== FILE: config.dfy ===
/** Configuration of the ingestion stage (src/config.py): the parsed params document,
    the process environment, and the accessors the stage reads them through.
    Loading the YAML file and the `.env` file is left to the caller: both arrive here
    as immutable values. */
module Config {
  import opened Results
  import opened Errors

  /** A node of the params document as a YAML safe-load produces it. */
  datatype Value =
    | Null
    | Bool(b: bool)
    | Int(i: int)
    | Float(x: real)
    | Str(s: string)
    | List(items: seq<Value>)
    | Dict(entries: map<string, Value>)

  /** Python truthiness of a params value: `not v`. */
  predicate Falsy(v: Value) {
    match v
    case Null => true
    case Bool(b) => !b
    case Int(i) => i == 0
    case Float(x) => x == 0.0
    case Str(s) => |s| == 0
    case List(items) => |items| == 0
    case Dict(m) => |m| == 0
  }

  /** The process environment after `.env` has been merged into it. */
  type Env = map<string, string>

  const AccessKeyVar := "AWS_ACCESS_KEY"
  const SecretKeyVar := "AWS_SECRET_KEY"
  const BucketVar := "S3_BUCKET_NAME"
  const EnvironmentVar := "ENVIRONMENT"
  const DefaultBucket := "complaints-datagrid-alee"

  // ---------------------------------------------------------------------------
  // Environment-backed accessors
  // ---------------------------------------------------------------------------

  /** `os.getenv(name)`. */
  function GetEnv(env: Env, name: string): Option<string> {
    if name in env then Some(env[name]) else None
  }

  /** The shared shape of the secret accessors: read the variable and raise
      unless it is set to a non-empty string. */
  function RequireSecret(env: Env, name: string): (r: Result<string, Error>)
    ensures r.Success? <==> name in env && |env[name]| > 0
    ensures r.Success? ==> r.value == env[name]
    ensures r.Failure? ==> r.error == SecretNotFound(name)
  {
    match GetEnv(env, name)
    case Some(key) => if key != "" then Success(key) else Failure(SecretNotFound(name))
    case None => Failure(SecretNotFound(name))
  }

  /** `Config.aws_access_key`. */
  function AwsAccessKey(env: Env): (r: Result<string, Error>)
    ensures r.Success? <==> AccessKeyVar in env && |env[AccessKeyVar]| > 0
    ensures r.Success? ==> r.value == env[AccessKeyVar] && |r.value| > 0
    ensures r.Failure? ==> r.error == SecretNotFound(AccessKeyVar)
  {
    RequireSecret(env, AccessKeyVar)
  }

  /** `Config.aws_secret_key`. */
  function AwsSecretKey(env: Env): (r: Result<string, Error>)
    ensures r.Success? <==> SecretKeyVar in env && |env[SecretKeyVar]| > 0
    ensures r.Success? ==> r.value == env[SecretKeyVar] && |r.value| > 0
    ensures r.Failure? ==> r.error == SecretNotFound(SecretKeyVar)
  {
    RequireSecret(env, SecretKeyVar)
  }

  /** `Config.s3_bucket`: the variable's value whenever it is present (even empty),
      the hard-coded bucket only when it is absent. */
  function S3Bucket(env: Env): (r: string)
    ensures BucketVar in env ==> r == env[BucketVar]
    ensures BucketVar !in env ==> r == DefaultBucket
  {
    GetEnv(env, BucketVar).GetOr(DefaultBucket)
  }

  /** What `Config.environment` hands back, together with whether it logged its warning. */
  datatype EnvironmentSetting = EnvironmentSetting(value: Option<string>, warned: bool)

  /** `Config.environment`: never raises; returns the raw value (or `None`) and
      warns when that value is falsy. */
  function Environment(env: Env): (r: EnvironmentSetting)
    ensures r.value.Some? <==> EnvironmentVar in env
    ensures r.value.Some? ==> r.value.value == env[EnvironmentVar]
    ensures r.warned <==> r.value == None || r.value == Some("")
  {
    var raw := GetEnv(env, EnvironmentVar);
    EnvironmentSetting(raw, raw == None || raw == Some(""))
  }

  // ---------------------------------------------------------------------------
  // Params-backed accessors
  // ---------------------------------------------------------------------------

  /** `v[key]` for a params node: a mapping yields its entry or raises `KeyError`;
      anything else (None, a scalar, a list) raises `TypeError`. */
  function Subscript(v: Value, key: string): Result<Value, Error> {
    match v
    case Dict(m) => if key in m then Success(m[key]) else Failure(KeyNotFound(key))
    case _ => Failure(NotSubscriptable(key))
  }

  /** The strict chain `v[k0][k1]...`, stopping at the first exception. */
  function Index(v: Value, path: seq<string>): Result<Value, Error>
    decreases |path|
  {
    if |path| == 0 then Success(v)
    else
      match Subscript(v, path[0])
      case Failure(e) => Failure(e)
      case Success(child) => Index(child, path[1..])
  }

  /** `key` is an entry of the mapping `v`. */
  predicate Has(v: Value, key: string) {
    v.Dict? && key in v.entries
  }

  /** The entry `key` of the mapping `v`. */
  function Field(v: Value, key: string): Value
    requires Has(v, key)
  {
    v.entries[key]
  }

  /** The value of `params[outer][inner]`: it exists exactly when both levels are
      mappings holding the keys, and it is then returned as stored, even when null. */
  function Nested(params: Value, outer: string, inner: string): (r: Result<Value, Error>)
    ensures r.Success? <==> Has(params, outer) && Has(Field(params, outer), inner)
    ensures r.Success? ==> r.value == Field(Field(params, outer), inner)
    ensures !params.Dict? ==> r == Failure(NotSubscriptable(outer))
    ensures params.Dict? && outer !in params.entries ==> r == Failure(KeyNotFound(outer))
  {
    match Subscript(params, outer)
    case Failure(e) => Failure(e)
    case Success(section) => Subscript(section, inner)
  }

  /** `Config.s3_bucket_name`: `params['bucket']['name']`. */
  function S3BucketName(params: Value): (r: Result<Value, Error>)
    ensures r.Success? <==> Has(params, "bucket") && Has(Field(params, "bucket"), "name")
    ensures r.Success? ==> r.value == Field(Field(params, "bucket"), "name")
  {
    Nested(params, "bucket", "name")
  }

  /** `Config.aws_region`: `params['bucket']['region']`. */
  function AwsRegion(params: Value): (r: Result<Value, Error>)
    ensures r.Success? <==> Has(params, "bucket") && Has(Field(params, "bucket"), "region")
    ensures r.Success? ==> r.value == Field(Field(params, "bucket"), "region")
  {
    Nested(params, "bucket", "region")
  }

  /** `Config.test_size`: `params['data_ingestion']['test_size']`. */
  function TestSize(params: Value): (r: Result<Value, Error>)
    ensures r.Success? <==> Has(params, "data_ingestion") && Has(Field(params, "data_ingestion"), "test_size")
    ensures r.Success? ==> r.value == Field(Field(params, "data_ingestion"), "test_size")
  {
    Nested(params, "data_ingestion", "test_size")
  }

  /** `Config.file_name`: `params['file_name']`. */
  function FileName(params: Value): (r: Result<Value, Error>)
    ensures r.Success? <==> Has(params, "file_name")
    ensures r.Success? ==> r.value == Field(params, "file_name")
    ensures !params.Dict? ==> r == Failure(NotSubscriptable("file_name"))
    ensures params.Dict? && "file_name" !in params.entries ==> r == Failure(KeyNotFound("file_name"))
  {
    Subscript(params, "file_name")
  }

  /** `Config.get_param(*keys, default=default)`: walk the keys with `dict.get`, give up
      with `default` at the first node that is not a mapping, and replace a final `None`
      by `default`. Its result is the strict chain `params[k0][k1]...` with every raised
      exception and a null result replaced by `default`. */
  function GetParam(value: Value, keys: seq<string>, default: Value): (r: Value)
    ensures r == match Index(value, keys)
                 case Success(v) => (if v.Null? then default else v)
                 case Failure(_) => default
    decreases |keys|
  {
    if |keys| == 0 then
      if value.Null? then default else value
    else
      match value
      case Dict(m) => GetParam(if keys[0] in m then m[keys[0]] else Null, keys[1..], default)
      case _ => default
  }

  // ---------------------------------------------------------------------------
  // Properties of get_param
  // ---------------------------------------------------------------------------

  /** Indexing along `p + q` is indexing along `p`, then along `q` from where `p` ended. */
  lemma {:induction false} IndexAppend(v: Value, p: seq<string>, q: seq<string>)
    ensures Index(v, p + q) == match Index(v, p)
                               case Success(w) => Index(w, q)
                               case Failure(e) => Failure(e)
    decreases |p|
  {
    if |p| == 0 {
      assert p + q == q;
    } else {
      assert (p + q)[0] == p[0];
      assert (p + q)[1..] == p[1..] + q;
      match Subscript(v, p[0])
      case Failure(e) =>
      case Success(child) =>
        IndexAppend(child, p[1..], q);
    }
  }

  /** With no keys, `get_param` returns the whole tree, or `default` if the tree is null. */
  lemma GetParamWithoutKeys(params: Value, default: Value)
    ensures GetParam(params, [], default) == (if params.Null? then default else params)
  {
  }

  /** Once the keys consumed so far lead to a node that is not a mapping, or to a
      mapping without the next key, `get_param` returns `default`. This covers a
      scalar or list met mid-path, an explicit null mid-path and a missing key. */
  lemma GetParamFallsBack(params: Value, keys: seq<string>, i: nat, node: Value, default: Value)
    requires i < |keys|
    requires Index(params, keys[..i]) == Success(node)
    requires !Has(node, keys[i])
    ensures GetParam(params, keys, default) == default
  {
    assert keys == keys[..i] + keys[i..];
    IndexAppend(params, keys[..i], keys[i..]);
    assert Index(node, keys[i..]).Failure?;
  }

  /** `get_param` returns a present non-null value unchanged, falsy or not. */
  lemma GetParamReturnsPresentValue(params: Value, keys: seq<string>, found: Value, default: Value)
    requires Index(params, keys) == Success(found)
    requires !found.Null?
    ensures GetParam(params, keys, default) == found
  {
  }

  /** Only null is replaced: whatever `get_param` returns other than `default`
      is non-null and is the value stored at the path. */
  lemma GetParamOnlyReplacesNull(params: Value, keys: seq<string>, default: Value)
    ensures var r := GetParam(params, keys, default);
            r == default || (!r.Null? && Index(params, keys) == Success(r))
  {
  }

  /** Falsy values such as `0`, `False` and `""` come back unchanged. */
  lemma GetParamKeepsFalsyValues(default: Value)
    requires default != Int(0) && default != Bool(false) && default != Str("")
    ensures GetParam(Dict(map["n" := Int(0)]), ["n"], default) == Int(0)
    ensures GetParam(Dict(map["b" := Bool(false)]), ["b"], default) == Bool(false)
    ensures GetParam(Dict(map["s" := Str("")]), ["s"], default) == Str("")
    ensures GetParam(Dict(map["n" := Null]), ["n"], default) == default
  {
  }

  /** Any falsy value other than null stored at the path comes back unchanged:
      `get_param` tests `is not None`, not truthiness. */
  lemma GetParamKeepsFalsy(params: Value, keys: seq<string>, found: Value, default: Value)
    requires Index(params, keys) == Success(found)
    requires Falsy(found) && !found.Null?
    ensures GetParam(params, keys, default) == found
  {
  }

  /** `get_param('bucket', 'name')` agrees with `s3_bucket_name` whenever the latter
      finds a non-null value, and returns `default` whenever the latter raises. */
  lemma GetParamAgreesWithS3BucketName(params: Value, default: Value)
    ensures S3BucketName(params).Success? && !S3BucketName(params).value.Null? ==>
              GetParam(params, ["bucket", "name"], default) == S3BucketName(params).value
    ensures S3BucketName(params).Failure? ==> GetParam(params, ["bucket", "name"], default) == default
  {
    var path := ["bucket", "name"];
    assert path[1..] == ["name"] && path[1..][1..] == [];
    assert Index(params, path) == S3BucketName(params);
  }
}

=== FILE: data_ingestion.dfy ===
/** The ingestion stage (src/data/data_ingestion.py): acquire a labelled table from the
    public CSV or from object storage, keep the positive and negative rows recoded to
    1 and 0, split them, and write both parts under `<data_path>/raw/`.

    Every foreign collaborator (CSV download and parsing, the object-storage client,
    the train/test splitter, directory creation and CSV writing) is a field of
    `Services`: an opaque function that either answers or raises. A run records the
    foreign calls it makes, in order, as a trace of `Effect`s. */
module DataIngestion {
  import opened Results
  import opened Errors
  import opened Frames
  import Config

  // ---------------------------------------------------------------------------
  // preprocess_data
  // ---------------------------------------------------------------------------

  const SentimentColumn := "sentiment"
  const PositiveLabel := Text("positive")
  const NegativeLabel := Text("negative")

  /** Every row has a sentiment cell. */
  predicate Labelled(rows: seq<Row>) {
    forall i :: 0 <= i < |rows| ==> SentimentColumn in rows[i]
  }

  /** The row survives `isin(['positive', 'negative'])`: exact, case-sensitive match. */
  predicate IsKept(r: Row)
    requires SentimentColumn in r
  {
    r[SentimentColumn] == PositiveLabel || r[SentimentColumn] == NegativeLabel
  }

  /** `df[df['sentiment'].isin(['positive', 'negative'])]`: the kept rows, in order. */
  function SelectKept(rows: seq<Row>): (out: seq<Row>)
    requires Labelled(rows)
    ensures |out| <= |rows|
    ensures forall j :: 0 <= j < |out| ==> out[j] in rows && IsKept(out[j])
    decreases |rows|
  {
    if |rows| == 0 then []
    else if IsKept(rows[0]) then [rows[0]] + SelectKept(rows[1..])
    else SelectKept(rows[1..])
  }

  /** `replace({'positive': 1, 'negative': 0})` on one cell; other cells are left alone. */
  function Recode(c: Cell): Cell {
    if c == PositiveLabel then Int(1)
    else if c == NegativeLabel then Int(0)
    else c
  }

  /** The row with its sentiment cell replaced. */
  function RecodeRow(r: Row): Row
    requires SentimentColumn in r
  {
    r[SentimentColumn := Recode(r[SentimentColumn])]
  }

  /** `final_df['sentiment'] = final_df['sentiment'].replace(...)` over all rows. */
  function ReplaceLabels(rows: seq<Row>): seq<Row>
    requires Labelled(rows)
  {
    seq(|rows|, i requires 0 <= i < |rows| => RecodeRow(rows[i]))
  }

  /** `out` is `src` with a kept label recoded: same columns, every other cell equal,
      and the sentiment cell 1 for "positive" and 0 for "negative". */
  predicate RecodedFrom(out: Row, src: Row)
    requires SentimentColumn in src
  {
    && out.Keys == src.Keys
    && (forall c :: c in src && c != SentimentColumn ==> out[c] == src[c])
    && out[SentimentColumn] == (if src[SentimentColumn] == PositiveLabel then Int(1) else Int(0))
  }

  /** The label cell holds a binary code. */
  predicate HasBinaryLabel(r: Row) {
    SentimentColumn in r && (r[SentimentColumn] == Int(0) || r[SentimentColumn] == Int(1))
  }

  /** `preprocess_data`: raises `KeyError` when the frame has no sentiment column,
      otherwise keeps the same columns and only rows labelled 1 or 0. */
  function PreprocessData(t: Table): (r: Result<Table, Error>)
    ensures r.Failure? <==> SentimentColumn !in t.columns
    ensures r.Failure? ==> r.error == ColumnNotFound(SentimentColumn)
    ensures r.Success? ==> r.value.columns == t.columns && |r.value.rows| <= |t.rows|
    ensures r.Success? ==> forall row :: row in r.value.rows ==> HasBinaryLabel(row)
  {
    if SentimentColumn !in t.columns then Failure(ColumnNotFound(SentimentColumn))
    else
      assert SentimentColumn in ColumnSet(t);
      var kept := SelectKept(t.rows);
      var out := Frame(t.columns, ReplaceLabels(kept));
      assert forall row :: row in out.rows ==> row.Keys == ColumnSet(t) && HasBinaryLabel(row) by {
        forall row | row in out.rows
          ensures row.Keys == ColumnSet(t) && HasBinaryLabel(row)
        {
          var i :| 0 <= i < |kept| && out.rows[i] == row;
          assert kept[i] in kept;
        }
      }
      Success(out)
  }

  // ---------------------------------------------------------------------------
  // save_data
  // ---------------------------------------------------------------------------

  /** `os.path.join(a, b)` on POSIX: an absolute `b` replaces `a`; otherwise a
      separator is inserted unless `a` is empty or already ends with one. */
  function JoinPath(a: string, b: string): string {
    if |b| > 0 && b[0] == '/' then b
    else if a == "" || a[|a| - 1] == '/' then a + b
    else a + "/" + b
  }

  /** `<data_path>/raw`. */
  function RawDir(dataPath: string): string {
    JoinPath(dataPath, "raw")
  }

  /** `<data_path>/raw/train.csv`. */
  function TrainPath(dataPath: string): string {
    JoinPath(RawDir(dataPath), "train.csv")
  }

  /** `<data_path>/raw/test.csv`. */
  function TestPath(dataPath: string): string {
    JoinPath(RawDir(dataPath), "test.csv")
  }

  // ---------------------------------------------------------------------------
  // Collaborators and traces
  // ---------------------------------------------------------------------------

  /** The arguments `main` builds `s3_connection.s3_operations` from. */
  datatype S3Client = S3Client(bucket: Config.Value, accessKey: string, secretKey: string, region: Config.Value)

  /** The foreign collaborators. An `Option<Fault>` answer is `None` on success. */
  datatype Services = Services(
    readCsv: string -> Result<Table, Fault>,
    connectS3: S3Client -> Option<Fault>,
    fetchFromS3: (S3Client, Config.Value) -> Result<Table, Fault>,
    split: (Table, Config.Value, int) -> Result<(Table, Table), Fault>,
    makeDirs: string -> Option<Fault>,
    writeCsv: (string, Table) -> Option<Fault>)

  /** The stages of a run, in the order they run. */
  datatype Stage = Acquisition | Preprocessing | Splitting | Saving

  function Rank(s: Stage): nat {
    match s
    case Acquisition => 0
    case Preprocessing => 1
    case Splitting => 2
    case Saving => 3
  }

  /** One call into a foreign collaborator, with its arguments. */
  datatype Effect =
    | ReadCsv(url: string)
    | ConnectS3(client: S3Client)
    | FetchFromS3(client: S3Client, key: Config.Value)
    | SplitRows(data: Table, testSize: Config.Value, seed: int)
    | MakeDirs(path: string)
    | WriteCsv(path: string, data: Table)

  function StageOf(e: Effect): Stage {
    match e
    case ReadCsv(_) => Acquisition
    case ConnectS3(_) => Acquisition
    case FetchFromS3(_, _) => Acquisition
    case SplitRows(_, _, _) => Splitting
    case MakeDirs(_) => Saving
    case WriteCsv(_, _) => Saving
  }

  /** The calls of a trace belong to non-decreasing stages. */
  predicate StagesInOrder(effects: seq<Effect>) {
    forall i, j :: 0 <= i < j < |effects| ==> Rank(StageOf(effects[i])) <= Rank(StageOf(effects[j]))
  }

  /** Every call of the trace belongs to a stage between `lo` and `hi`. */
  predicate StagesWithin(effects: seq<Effect>, lo: Stage, hi: Stage) {
    forall i :: 0 <= i < |effects| ==> Rank(lo) <= Rank(StageOf(effects[i])) <= Rank(hi)
  }

  /** What one stage did and how it ended. */
  datatype Step<T> = Step(effects: seq<Effect>, result: Result<T, Error>)

  /** An exception raised inside a collaborator propagates unchanged. */
  function Lift<T>(r: Result<T, Fault>): Result<T, Error> {
    match r
    case Success(v) => Success(v)
    case Failure(f) => Failure(Raised(f))
  }

  /** `save_data(train, test, dataPath)`: create `<dataPath>/raw`, write train, write test,
      stopping at the first exception. The trace is always a non-empty prefix of those
      three calls, and it succeeds exactly when all three calls do. */
  function SaveData(train: Table, test: Table, dataPath: string, svc: Services): (s: Step<()>)
    ensures 1 <= |s.effects| <= 3
    ensures s.effects[0] == MakeDirs(RawDir(dataPath))
    ensures |s.effects| >= 2 ==> s.effects[1] == WriteCsv(TrainPath(dataPath), train)
    ensures |s.effects| == 3 ==> s.effects[2] == WriteCsv(TestPath(dataPath), test)
    ensures s.result.Success? <==>
              && svc.makeDirs(RawDir(dataPath)).None?
              && svc.writeCsv(TrainPath(dataPath), train).None?
              && svc.writeCsv(TestPath(dataPath), test).None?
    ensures s.result.Success? ==> |s.effects| == 3
    ensures svc.makeDirs(RawDir(dataPath)).Some? ==>
              && |s.effects| == 1
              && s.result == Failure(Raised(svc.makeDirs(RawDir(dataPath)).value))
    ensures svc.makeDirs(RawDir(dataPath)).None? && svc.writeCsv(TrainPath(dataPath), train).Some? ==>
              && |s.effects| == 2
              && s.result == Failure(Raised(svc.writeCsv(TrainPath(dataPath), train).value))
    ensures svc.makeDirs(RawDir(dataPath)).None? && svc.writeCsv(TrainPath(dataPath), train).None? ==>
              && |s.effects| == 3
              && (svc.writeCsv(TestPath(dataPath), test).Some? ==>
                    s.result == Failure(Raised(svc.writeCsv(TestPath(dataPath), test).value)))
    ensures StagesWithin(s.effects, Saving, Saving)
  {
    var raw := JoinPath(dataPath, "raw");
    var trainPath := JoinPath(raw, "train.csv");
    var testPath := JoinPath(raw, "test.csv");
    match svc.makeDirs(raw)
    case Some(f) => Step([MakeDirs(raw)], Failure(Raised(f)))
    case None =>
      match svc.writeCsv(trainPath, train)
      case Some(f) => Step([MakeDirs(raw), WriteCsv(trainPath, train)], Failure(Raised(f)))
      case None =>
        var effects := [MakeDirs(raw), WriteCsv(trainPath, train), WriteCsv(testPath, test)];
        match svc.writeCsv(testPath, test)
        case Some(f) => Step(effects, Failure(Raised(f)))
        case None => Step(effects, Success(()))
  }

  // ---------------------------------------------------------------------------
  // main
  // ---------------------------------------------------------------------------

  const DatasetUrl := "https://raw.githubusercontent.com/vikashishere/Datasets/refs/heads/main/data.csv"
  const LocalEnvironment := "local"
  const DataPath := "./data"
  const Seed := 42

  /** Where the raw table comes from. */
  datatype SourceKind = LocalCsv | RemoteS3

  /** `config.environment == 'local'`: the public CSV exactly when the variable is set
      to "local"; object storage for every other value, unset and empty included. */
  function SelectSource(env: Config.Env): (k: SourceKind)
    ensures k == LocalCsv <==> Config.EnvironmentVar in env && env[Config.EnvironmentVar] == LocalEnvironment
  {
    if Config.Environment(env).value == Some(LocalEnvironment) then LocalCsv else RemoteS3
  }

  /** The `else` branch of `main`'s acquisition: check both secrets (the accessors raise
      first), build the client from params, then fetch the object named by `file_name`. */
  function AcquireRemote(env: Config.Env, params: Config.Value, svc: Services): (s: Step<Table>)
    ensures s.result.Failure? ==> s.result.error != CredentialsNotSet
    ensures s.effects == [] || s.effects[0].ConnectS3?
    ensures s.result.Success? ==> |s.effects| == 2 && s.effects[1].FetchFromS3?
    ensures StagesWithin(s.effects, Acquisition, Acquisition) && StagesInOrder(s.effects)
  {
    match Config.AwsAccessKey(env)
    case Failure(e) => Step([], Failure(e))
    case Success(accessKey) =>
      if accessKey == "" then Step([], Failure(CredentialsNotSet))
      else
        match Config.AwsSecretKey(env)
        case Failure(e) => Step([], Failure(e))
        case Success(secretKey) =>
          if secretKey == "" then Step([], Failure(CredentialsNotSet))
          else
            match Config.S3BucketName(params)
            case Failure(e) => Step([], Failure(e))
            case Success(bucket) =>
              match Config.AwsRegion(params)
              case Failure(e) => Step([], Failure(e))
              case Success(region) =>
                var client := S3Client(bucket, accessKey, secretKey, region);
                match svc.connectS3(client)
                case Some(f) => Step([ConnectS3(client)], Failure(Raised(f)))
                case None =>
                  match Config.FileName(params)
                  case Failure(e) => Step([ConnectS3(client)], Failure(e))
                  case Success(key) =>
                    Step([ConnectS3(client), FetchFromS3(client, key)], Lift(svc.fetchFromS3(client, key)))
  }

  /** The acquisition part of `main`. */
  function Acquire(env: Config.Env, params: Config.Value, svc: Services): (s: Step<Table>)
    ensures s.result.Failure? ==> s.result.error != CredentialsNotSet
    ensures StagesWithin(s.effects, Acquisition, Acquisition) && StagesInOrder(s.effects)
  {
    match SelectSource(env)
    case LocalCsv => Step([ReadCsv(DatasetUrl)], Lift(svc.readCsv(DatasetUrl)))
    case RemoteS3 => AcquireRemote(env, params, svc)
  }

  /** `main` writes to `./data/raw/train.csv` and `./data/raw/test.csv`. */
  lemma DataPathLayout()
    ensures RawDir(DataPath) == "./data/raw"
    ensures TrainPath(DataPath) == "./data/raw/train.csv"
    ensures TestPath(DataPath) == "./data/raw/test.csv"
  {
  }

  /** Two traces in stage order, the first entirely no later than the second,
      concatenate to a trace in stage order. */
  lemma StagesInOrderAppend(a: seq<Effect>, b: seq<Effect>, pivot: Stage)
    requires StagesInOrder(a) && StagesInOrder(b)
    requires StagesWithin(a, Acquisition, pivot)
    requires StagesWithin(b, pivot, Saving)
    ensures StagesInOrder(a + b)
  {
    forall i, j | 0 <= i < j < |a + b|
      ensures Rank(StageOf((a + b)[i])) <= Rank(StageOf((a + b)[j]))
    {
      if j < |a| {
      } else if i >= |a| {
        assert (a + b)[i] == b[i - |a|] && (a + b)[j] == b[j - |a|];
      } else {
        assert (a + b)[i] == a[i];
        assert (a + b)[j] == b[j - |a|];
      }
    }
  }

  /** A trace confined to one stage is in stage order. */
  lemma SingleStageInOrder(effects: seq<Effect>, stage: Stage)
    requires StagesWithin(effects, stage, stage)
    ensures StagesInOrder(effects)
  {
    forall i, j | 0 <= i < j < |effects|
      ensures Rank(StageOf(effects[i])) <= Rank(StageOf(effects[j]))
    {
      assert Rank(StageOf(effects[i])) == Rank(stage) == Rank(StageOf(effects[j]));
    }
  }

  /** Stage bounds can be widened. */
  lemma StagesWithinWiden(effects: seq<Effect>, lo: Stage, hi: Stage, lo': Stage, hi': Stage)
    requires StagesWithin(effects, lo, hi)
    requires Rank(lo') <= Rank(lo) && Rank(hi) <= Rank(hi')
    ensures StagesWithin(effects, lo', hi')
  {
  }

  /** Traces within the same stage bounds concatenate to a trace within them. */
  lemma StagesWithinAppend(a: seq<Effect>, b: seq<Effect>, lo: Stage, hi: Stage)
    requires StagesWithin(a, lo, hi) && StagesWithin(b, lo, hi)
    ensures StagesWithin(a + b, lo, hi)
  {
    forall i | 0 <= i < |a + b|
      ensures Rank(lo) <= Rank(StageOf((a + b)[i])) <= Rank(hi)
    {
      if i >= |a| {
        assert (a + b)[i] == b[i - |a|];
      }
    }
  }

  /** A successful run ends with the split (configured test size, seed 42), the
      directory `./data/raw`, then `./data/raw/train.csv` and `./data/raw/test.csv`. */
  predicate EndsWithSave(effects: seq<Effect>, params: Config.Value) {
    && |effects| >= 4
    && var tail := effects[|effects| - 4..];
    && tail[0].SplitRows?
    && Config.TestSize(params) == Success(tail[0].testSize)
    && tail[0].seed == Seed
    && tail[1] == MakeDirs(RawDir(DataPath))
    && tail[2].WriteCsv? && tail[2].path == TrainPath(DataPath)
    && tail[3].WriteCsv? && tail[3].path == TestPath(DataPath)
  }

  /** The stage that raised and what it raised. */
  datatype Failed = Failed(stage: Stage, error: Error)

  /** The foreign calls of a run, or of its tail, and the exception that ended it, if any. */
  datatype Run = Run(effects: seq<Effect>, failure: Option<Failed>)

  /** `train_test_split(final_df, test_size=..., random_state=42)` followed by
      `save_data(train, test, './data')`. */
  function SplitAndSave(final: Table, testSize: Config.Value, svc: Services): (run: Run)
    ensures StagesInOrder(run.effects) && StagesWithin(run.effects, Splitting, Saving)
    ensures |run.effects| > 0 && run.effects[0] == SplitRows(final, testSize, Seed)
    ensures run.failure.Some? ==>
              && run.failure.value.error.Raised?
              && StagesWithin(run.effects, Acquisition, run.failure.value.stage)
    ensures run.failure.None? ==>
              && |run.effects| == 4
              && run.effects[1] == MakeDirs(RawDir(DataPath))
              && run.effects[2].WriteCsv? && run.effects[2].path == TrainPath(DataPath)
              && run.effects[3].WriteCsv? && run.effects[3].path == TestPath(DataPath)
  {
    var splitting := [SplitRows(final, testSize, Seed)];
    match svc.split(final, testSize, Seed)
    case Failure(f) => Run(splitting, Some(Failed(Splitting, Raised(f))))
    case Success(parts) =>
      var saved := SaveData(parts.0, parts.1, DataPath, svc);
      SingleStageInOrder(saved.effects, Saving);
      StagesWithinWiden(saved.effects, Saving, Saving, Splitting, Saving);
      StagesInOrderAppend(splitting, saved.effects, Splitting);
      StagesWithinAppend(splitting, saved.effects, Splitting, Saving);
      Run(splitting + saved.effects,
          if saved.result.Failure? then Some(Failed(Saving, saved.result.error)) else None)
  }

  /** The part of `main` after acquisition: preprocess, read `test_size`, then split
      and save, stopping at the first exception. */
  function ProcessAcquired(raw: Table, params: Config.Value, svc: Services): (run: Run)
    ensures StagesInOrder(run.effects)
    ensures StagesWithin(run.effects, Splitting, Saving)
    ensures run.failure.Some? ==>
              && run.failure.value.stage != Acquisition
              && run.failure.value.error != CredentialsNotSet
              && StagesWithin(run.effects, Acquisition, run.failure.value.stage)
    ensures run.failure.None? ==> |run.effects| == 4 && EndsWithSave(run.effects, params)
  {
    match PreprocessData(raw)
    case Failure(e) => Run([], Some(Failed(Preprocessing, e)))
    case Success(final) =>
      match Config.TestSize(params)
      case Failure(e) => Run([], Some(Failed(Splitting, e)))
      case Success(testSize) =>
        var run := SplitAndSave(final, testSize, svc);
        assert run.failure.None? ==> run.effects[|run.effects| - 4..] == run.effects;
        run
  }

  /** The outcome of `main`: whether it warned about a missing environment, the foreign
      calls it made, and the exception its top-level handler caught, if any. */
  datatype Report = Report(warned: bool, effects: seq<Effect>, failure: Option<Failed>)

  /** `main`: acquire, then process; the first exception ends the run and is caught by
      the top-level handler, not re-raised. */
  function Main(env: Config.Env, params: Config.Value, svc: Services): (r: Report)
    ensures r.warned <==> Config.EnvironmentVar !in env || env[Config.EnvironmentVar] == ""
    ensures StagesInOrder(r.effects)
    ensures r.failure.Some? ==> StagesWithin(r.effects, Acquisition, r.failure.value.stage)
  {
    var warned := Config.Environment(env).warned;
    var acquired := Acquire(env, params, svc);
    match acquired.result
    case Failure(e) => Report(warned, acquired.effects, Some(Failed(Acquisition, e)))
    case Success(raw) =>
      var run := ProcessAcquired(raw, params, svc);
      StagesWithinWiden(acquired.effects, Acquisition, Acquisition, Acquisition, Saving);
      StagesWithinWiden(run.effects, Splitting, Saving, Acquisition, Saving);
      StagesInOrderAppend(acquired.effects, run.effects, Acquisition);
      StagesWithinAppend(acquired.effects, run.effects, Acquisition, Saving);
      Report(warned, acquired.effects + run.effects, run.failure)
  }
}

=== FILE: errors.dfy ===
/** The exceptions the ingestion stage can raise, one constructor per distinguishable cause. */
module Errors {

  /** The message of an exception raised inside a foreign collaborator
      (CSV parsing, HTTP, object storage, the splitter, the filesystem). */
  type Fault = string

  datatype Error =
      /** `ValueError` from a secret accessor: the variable is unset or empty. */
    | SecretNotFound(variable: string)
      /** `ValueError("AWS credentials are not set ...")` raised by `main` itself. */
    | CredentialsNotSet
      /** `KeyError` from subscripting the params tree with a missing key. */
    | KeyNotFound(key: string)
      /** `TypeError` from subscripting a params node that is not a mapping. */
    | NotSubscriptable(key: string)
      /** `KeyError` from selecting a column the data frame does not have. */
    | ColumnNotFound(column: string)
      /** Any exception a foreign collaborator raised, passed through unchanged. */
    | Raised(fault: Fault)
}

=== FILE: frames.dfy ===
/** The slice of a pandas data frame the ingestion stage relies on: named columns
    and rows whose cells are addressed by column name. */
module Frames {

  /** A cell as `read_csv` or a later assignment leaves it. */
  datatype Cell =
    | Text(s: string)
    | Int(i: int)
    | Float(x: real)
    | Missing

  /** One row: column name to cell. */
  type Row = map<string, Cell>

  datatype Frame = Frame(columns: seq<string>, rows: seq<Row>)

  /** The set of column names. */
  function ColumnSet(f: Frame): set<string> {
    set c | c in f.columns
  }

  /** Column names are distinct (`read_csv` renames repeated headers), and every
      row has a cell for exactly the frame's columns. */
  predicate WellFormed(f: Frame) {
    && (forall i, j :: 0 <= i < j < |f.columns| ==> f.columns[i] != f.columns[j])
    && (forall r :: r in f.rows ==> r.Keys == ColumnSet(f))
  }

  /** A data frame: rectangular by construction. */
  type Table = f: Frame | WellFormed(f) witness Frame([], [])
}

=== FILE: main_properties.dfy ===
/** What a run of the ingestion stage does, stated over whole runs of `main`: where the
    raw table comes from, which secrets and params a fetch depends on, the calls a
    successful run ends with, and what reaches the written files. */
module MainProperties {
  import opened Results
  import opened Errors
  import opened Frames
  import Config
  import opened DataIngestion

  // ---------------------------------------------------------------------------
  // save_data paths
  // ---------------------------------------------------------------------------

  /** For any data path, the directory is `<data_path>/raw` (no doubled separator),
      both files lie directly inside it, and they are different files. */
  lemma SavePathLayout(dataPath: string)
    ensures RawDir(dataPath) ==
              if dataPath == "" || dataPath[|dataPath| - 1] == '/' then dataPath + "raw"
              else dataPath + "/raw"
    ensures TrainPath(dataPath) == RawDir(dataPath) + "/train.csv"
    ensures TestPath(dataPath) == RawDir(dataPath) + "/test.csv"
    ensures TrainPath(dataPath) != TestPath(dataPath)
  {
    var raw := RawDir(dataPath);
    assert |raw| > 0 && raw[|raw| - 1] == 'w';
    var train := TrainPath(dataPath);
    var test := TestPath(dataPath);
    assert train[|raw| + 1] == 't' && test[|raw| + 1] == 't';
    assert train[|raw| + 2] == 'r' && test[|raw| + 2] == 'e';
  }

  // ---------------------------------------------------------------------------
  // Success shape
  // ---------------------------------------------------------------------------

  /** `main` is acquisition followed, when it succeeds, by the rest of the run; the
      warning depends on the environment alone. */
  lemma MainSteps(env: Config.Env, params: Config.Value, svc: Services)
    ensures var acquired := Acquire(env, params, svc);
            var r := Main(env, params, svc);
            && r.warned == Config.Environment(env).warned
            && (acquired.result.Failure? ==>
                  r.effects == acquired.effects && r.failure == Some(Failed(Acquisition, acquired.result.error)))
            && (acquired.result.Success? ==>
                  var run := ProcessAcquired(acquired.result.value, params, svc);
                  r.effects == acquired.effects + run.effects && r.failure == run.failure)
  {
  }

  /** A prefix does not change how a trace ends. */
  lemma EndsWithSaveAppend(a: seq<Effect>, b: seq<Effect>, params: Config.Value)
    requires EndsWithSave(b, params)
    ensures EndsWithSave(a + b, params)
  {
    assert (a + b)[|a + b| - 4..] == b[|b| - 4..];
  }

  /** Every run that gets through without an exception ends with the split at the
      configured test size and seed 42, the directory `./data/raw`, then the two files
      `./data/raw/train.csv` and `./data/raw/test.csv`. */
  lemma MainSavesUnderDataRaw(env: Config.Env, params: Config.Value, svc: Services)
    ensures Main(env, params, svc).failure.None? ==> EndsWithSave(Main(env, params, svc).effects, params)
  {
    var acquired := Acquire(env, params, svc);
    if acquired.result.Success? {
      var run := ProcessAcquired(acquired.result.value, params, svc);
      assert Main(env, params, svc).effects == acquired.effects + run.effects;
      if run.failure.None? {
        EndsWithSaveAppend(acquired.effects, run.effects, params);
      }
    }
  }

  /** The top-level handler catches everything, and the credentials message of `main`
      is never what it catches: an unset or empty key makes the accessor raise first. */
  lemma CredentialsCheckUnreachable(env: Config.Env, params: Config.Value, svc: Services)
    ensures Main(env, params, svc).failure.Some? ==> Main(env, params, svc).failure.value.error != CredentialsNotSet
  {
    var acquired := Acquire(env, params, svc);
    if acquired.result.Success? {
      var run := ProcessAcquired(acquired.result.value, params, svc);
    }
  }

  // ---------------------------------------------------------------------------
  // Local source
  // ---------------------------------------------------------------------------

  /** A single CSV read followed by calls of later stages never touches object storage. */
  lemma ReadThenLaterStages(read: seq<Effect>, later: seq<Effect>)
    requires read == [ReadCsv(DatasetUrl)]
    requires StagesWithin(later, Splitting, Saving)
    ensures (read + later)[0] == ReadCsv(DatasetUrl)
    ensures forall i :: 0 <= i < |read + later| ==> !(read + later)[i].ConnectS3? && !(read + later)[i].FetchFromS3?
  {
    forall i | 1 <= i < |read + later|
      ensures StageOf((read + later)[i]) != Acquisition
    {
      assert (read + later)[i] == later[i - 1];
    }
  }

  /** With `ENVIRONMENT=local` the run first reads the fixed public CSV and never talks
      to object storage. */
  lemma LocalReadsFixedUrl(env: Config.Env, params: Config.Value, svc: Services)
    requires Config.EnvironmentVar in env && env[Config.EnvironmentVar] == LocalEnvironment
    ensures var r := Main(env, params, svc);
            && |r.effects| > 0
            && r.effects[0] == ReadCsv(DatasetUrl)
            && forall i :: 0 <= i < |r.effects| ==> !r.effects[i].ConnectS3? && !r.effects[i].FetchFromS3?
  {
    var acquired := Acquire(env, params, svc);
    assert acquired.effects == [ReadCsv(DatasetUrl)];
    MainSteps(env, params, svc);
    if acquired.result.Success? {
      ReadThenLaterStages(acquired.effects, ProcessAcquired(acquired.result.value, params, svc).effects);
    }
  }

  /** With `ENVIRONMENT=local` nothing else in the environment matters: the secrets and
      the bucket variable are never read. */
  lemma LocalIgnoresCredentials(env1: Config.Env, env2: Config.Env, params: Config.Value, svc: Services)
    requires Config.EnvironmentVar in env1 && env1[Config.EnvironmentVar] == LocalEnvironment
    requires Config.EnvironmentVar in env2 && env2[Config.EnvironmentVar] == LocalEnvironment
    ensures Main(env1, params, svc) == Main(env2, params, svc)
  {
    assert Acquire(env1, params, svc) == Acquire(env2, params, svc);
  }

  // ---------------------------------------------------------------------------
  // Remote source
  // ---------------------------------------------------------------------------

  /** Outside `local`, an unset or empty `AWS_ACCESS_KEY` ends the run before any
      foreign call, with the accessor's error. */
  lemma RemoteWithoutAccessKeyFails(env: Config.Env, params: Config.Value, svc: Services)
    requires SelectSource(env) == RemoteS3
    requires Config.AccessKeyVar !in env || env[Config.AccessKeyVar] == ""
    ensures Main(env, params, svc) ==
              Report(Config.Environment(env).warned, [], Some(Failed(Acquisition, SecretNotFound(Config.AccessKeyVar))))
  {
  }

  /** Outside `local`, with the access key set, an unset or empty `AWS_SECRET_KEY` ends
      the run before any foreign call, with the accessor's error. */
  lemma RemoteWithoutSecretKeyFails(env: Config.Env, params: Config.Value, svc: Services)
    requires SelectSource(env) == RemoteS3
    requires Config.AccessKeyVar in env && env[Config.AccessKeyVar] != ""
    requires Config.SecretKeyVar !in env || env[Config.SecretKeyVar] == ""
    ensures Main(env, params, svc) ==
              Report(Config.Environment(env).warned, [], Some(Failed(Acquisition, SecretNotFound(Config.SecretKeyVar))))
  {
  }

  /** Outside `local`, the run makes a foreign call only when both secrets are set to
      non-empty strings. */
  lemma RemoteCallsNeedBothSecrets(env: Config.Env, params: Config.Value, svc: Services)
    requires SelectSource(env) == RemoteS3
    ensures |Main(env, params, svc).effects| > 0 ==>
              && Config.AccessKeyVar in env && |env[Config.AccessKeyVar]| > 0
              && Config.SecretKeyVar in env && |env[Config.SecretKeyVar]| > 0
  {
    var acquired := Acquire(env, params, svc);
    if acquired.result.Success? {
      var run := ProcessAcquired(acquired.result.value, params, svc);
    }
  }

  /** Outside `local`, with both secrets set and the bucket name and region in params,
      the first call connects with exactly those four values; once connected, and with
      `file_name` in params, the second call fetches that object. */
  lemma RemoteConnectsWithParamsBucket(env: Config.Env, params: Config.Value, svc: Services, bucket: Config.Value, region: Config.Value)
    requires SelectSource(env) == RemoteS3
    requires Config.AccessKeyVar in env && env[Config.AccessKeyVar] != ""
    requires Config.SecretKeyVar in env && env[Config.SecretKeyVar] != ""
    requires Config.S3BucketName(params) == Success(bucket)
    requires Config.AwsRegion(params) == Success(region)
    ensures var client := S3Client(bucket, env[Config.AccessKeyVar], env[Config.SecretKeyVar], region);
            var r := Main(env, params, svc);
            && |r.effects| > 0
            && r.effects[0] == ConnectS3(client)
            && (svc.connectS3(client).None? && Config.FileName(params).Success? ==>
                  |r.effects| > 1 && r.effects[1] == FetchFromS3(client, Config.FileName(params).value))
  {
    var acquired := Acquire(env, params, svc);
    if acquired.result.Success? {
      var run := ProcessAcquired(acquired.result.value, params, svc);
      assert Main(env, params, svc).effects == acquired.effects + run.effects;
    }
  }

  /** `S3_BUCKET_NAME` plays no part in a run: the bucket comes from params. */
  lemma MainIgnoresBucketVariable(env: Config.Env, params: Config.Value, svc: Services)
    ensures Main(env, params, svc) == Main(env - {Config.BucketVar}, params, svc)
  {
    var env' := env - {Config.BucketVar};
    assert Config.AccessKeyVar in env <==> Config.AccessKeyVar in env';
    assert Config.SecretKeyVar in env <==> Config.SecretKeyVar in env';
    assert Config.EnvironmentVar in env <==> Config.EnvironmentVar in env';
    assert Acquire(env, params, svc) == Acquire(env', params, svc);
  }

  /** With `ENVIRONMENT` unset the run warns and goes to object storage: it either
      fails before any call or starts by connecting. */
  lemma UnsetEnvironmentWarnsAndGoesRemote(env: Config.Env, params: Config.Value, svc: Services)
    requires Config.EnvironmentVar !in env
    ensures Main(env, params, svc).warned
    ensures Main(env, params, svc).effects == [] || Main(env, params, svc).effects[0].ConnectS3?
  {
    var acquired := Acquire(env, params, svc);
    assert acquired == AcquireRemote(env, params, svc);
    if acquired.result.Success? {
      var run := ProcessAcquired(acquired.result.value, params, svc);
      var effects := acquired.effects + run.effects;
      assert Main(env, params, svc).effects == effects;
      assert effects[0] == acquired.effects[0];
    }
  }

  // ---------------------------------------------------------------------------
  // Stage short-circuit
  // ---------------------------------------------------------------------------

  /** An acquired table without a sentiment column ends the run in preprocessing:
      nothing is split and nothing is written. */
  lemma MissingColumnStopsBeforeSplit(env: Config.Env, params: Config.Value, svc: Services, raw: Table)
    requires Acquire(env, params, svc).result == Success(raw)
    requires SentimentColumn !in raw.columns
    ensures Main(env, params, svc).failure == Some(Failed(Preprocessing, ColumnNotFound(SentimentColumn)))
    ensures Main(env, params, svc).effects == Acquire(env, params, svc).effects
  {
    assert Acquire(env, params, svc).effects + [] == Acquire(env, params, svc).effects;
  }

  /** A run that fails before the save stage neither creates the directory nor
      writes a file. */
  lemma EarlyFailureSavesNothing(env: Config.Env, params: Config.Value, svc: Services)
    ensures var r := Main(env, params, svc);
            r.failure.Some? && r.failure.value.stage != Saving ==>
              forall i :: 0 <= i < |r.effects| ==> !r.effects[i].MakeDirs? && !r.effects[i].WriteCsv?
  {
  }

  // ---------------------------------------------------------------------------
  // What reaches the files
  // ---------------------------------------------------------------------------

  /** The splitter behaves as `train_test_split` does on a frame: whenever it answers,
      the two parts keep the columns and together hold exactly the input rows. */
  ghost predicate SplitPartitions(svc: Services) {
    forall t: Table, testSize: Config.Value, seed: int {:trigger svc.split(t, testSize, seed)} ::
      svc.split(t, testSize, seed).Success? ==>
        var parts := svc.split(t, testSize, seed).value;
        && parts.0.columns == t.columns
        && parts.1.columns == t.columns
        && multiset(parts.0.rows) + multiset(parts.1.rows) == multiset(t.rows)
  }

  /** With a partitioning splitter, a run that reaches the end writes the preprocessed
      table, split between the two files: every preprocessed row goes to exactly one
      of them, and nothing else does. */
  lemma SavedRowsPartitionPreprocessed(raw: Table, params: Config.Value, svc: Services)
    requires SplitPartitions(svc)
    ensures var run := ProcessAcquired(raw, params, svc);
            run.failure.None? ==>
              && PreprocessData(raw).Success?
              && run.effects[0] == SplitRows(PreprocessData(raw).value, Config.TestSize(params).value, Seed)
              && run.effects[2].data.columns == raw.columns
              && run.effects[3].data.columns == raw.columns
              && multiset(run.effects[2].data.rows) + multiset(run.effects[3].data.rows)
                 == multiset(PreprocessData(raw).value.rows)
  {
    var run := ProcessAcquired(raw, params, svc);
    if run.failure.None? {
      var final := PreprocessData(raw).value;
      var testSize := Config.TestSize(params).value;
      var parts := svc.split(final, testSize, Seed).value;
      var saved := SaveData(parts.0, parts.1, DataPath, svc);
      assert run.effects == [SplitRows(final, testSize, Seed)] + saved.effects;
      assert run.effects[2] == saved.effects[1] && run.effects[3] == saved.effects[2];
    }
  }

  /** Every row of the table carries a label of 1 or 0. */
  predicate BinaryLabelled(t: Table) {
    forall row :: row in t.rows ==> HasBinaryLabel(row)
  }

  /** Parts that together hold the rows of a binary-labelled table are binary-labelled. */
  lemma PartsOfBinaryAreBinary(whole: Table, part: Table, other: Table)
    requires BinaryLabelled(whole)
    requires multiset(part.rows) + multiset(other.rows) == multiset(whole.rows)
    ensures BinaryLabelled(part)
  {
    forall row | row in part.rows
      ensures HasBinaryLabel(row)
    {
      assert row in multiset(whole.rows);
    }
  }

  /** Every table the trace writes is one of the two. */
  predicate WritesOnly(effects: seq<Effect>, a: Table, b: Table) {
    forall i :: 0 <= i < |effects| && effects[i].WriteCsv? ==> effects[i].data == a || effects[i].data == b
  }

  /** `save_data` writes only the two tables it was given. */
  lemma SaveDataWritesOnly(train: Table, test: Table, dataPath: string, svc: Services)
    ensures WritesOnly(SaveData(train, test, dataPath, svc).effects, train, test)
  {
  }

  /** After a successful split, the split-and-save trace writes only the two parts. */
  lemma SplitAndSaveWritesParts(final: Table, testSize: Config.Value, svc: Services)
    requires svc.split(final, testSize, Seed).Success?
    ensures var parts := svc.split(final, testSize, Seed).value;
            WritesOnly(SplitAndSave(final, testSize, svc).effects, parts.0, parts.1)
  {
    var parts := svc.split(final, testSize, Seed).value;
    var saved := SaveData(parts.0, parts.1, DataPath, svc);
    SaveDataWritesOnly(parts.0, parts.1, DataPath, svc);
    var effects := SplitAndSave(final, testSize, svc).effects;
    assert effects == [SplitRows(final, testSize, Seed)] + saved.effects;
    forall i | 1 <= i < |effects|
      ensures effects[i] == saved.effects[i - 1]
    {
    }
  }

  /** A partitioning splitter applied to a binary-labelled table yields binary-labelled parts. */
  lemma SplitPartsAreBinary(final: Table, testSize: Config.Value, svc: Services)
    requires SplitPartitions(svc)
    requires BinaryLabelled(final)
    requires svc.split(final, testSize, Seed).Success?
    ensures BinaryLabelled(svc.split(final, testSize, Seed).value.0)
    ensures BinaryLabelled(svc.split(final, testSize, Seed).value.1)
  {
    var parts := svc.split(final, testSize, Seed).value;
    PartsOfBinaryAreBinary(final, parts.0, parts.1);
    PartsOfBinaryAreBinary(final, parts.1, parts.0);
  }

  /** A trace that writes only binary-labelled tables writes only binary-labelled rows. */
  lemma WritesOfBinaryAreBinary(effects: seq<Effect>, a: Table, b: Table)
    requires WritesOnly(effects, a, b)
    requires BinaryLabelled(a) && BinaryLabelled(b)
    ensures forall i :: 0 <= i < |effects| && effects[i].WriteCsv? ==> BinaryLabelled(effects[i].data)
  {
  }

  /** With a partitioning splitter, every table written to either file, including one
      whose write raised, has only rows labelled 1 or 0. */
  lemma WrittenRowsAreBinary(raw: Table, params: Config.Value, svc: Services)
    requires SplitPartitions(svc)
    ensures var run := ProcessAcquired(raw, params, svc);
            forall i :: 0 <= i < |run.effects| && run.effects[i].WriteCsv? ==> BinaryLabelled(run.effects[i].data)
  {
    ProcessAcquiredSplitsPreprocessed(raw, params, svc);
    if PreprocessData(raw).Success? && Config.TestSize(params).Success? {
      var final := PreprocessData(raw).value;
      var testSize := Config.TestSize(params).value;
      var split := svc.split(final, testSize, Seed);
      if split.Success? {
        SplitPartsAreBinary(final, testSize, svc);
        SplitAndSaveWritesParts(final, testSize, svc);
        WritesOfBinaryAreBinary(SplitAndSave(final, testSize, svc).effects, split.value.0, split.value.1);
      }
    }
  }

  /** Once preprocessing and `test_size` succeed, the rest of the run is the split of
      the preprocessed table at that test size, followed by the save; otherwise nothing
      is called. */
  lemma ProcessAcquiredSplitsPreprocessed(raw: Table, params: Config.Value, svc: Services)
    ensures PreprocessData(raw).Success? && Config.TestSize(params).Success? ==>
              ProcessAcquired(raw, params, svc) == SplitAndSave(PreprocessData(raw).value, Config.TestSize(params).value, svc)
    ensures PreprocessData(raw).Failure? || Config.TestSize(params).Failure? ==>
              ProcessAcquired(raw, params, svc).effects == []
  {
  }
}

=== FILE: preprocess_properties.dfy ===
/** What `preprocess_data` does to a data frame, stated independently of how it is
    computed: the output is the order-preserving subsequence of rows labelled exactly
    "positive" or "negative", each recoded to 1 or 0 with every other cell unchanged. */
module PreprocessProperties {
  import opened Results
  import opened Errors
  import opened Frames
  import opened DataIngestion

  /** `idx` lists positions of `rows` in strictly increasing order. */
  predicate Increasing(idx: seq<nat>) {
    forall j, k :: 0 <= j < k < |idx| ==> idx[j] < idx[k]
  }

  /** The positions of the rows `isin` keeps. */
  function KeptPositions(rows: seq<Row>): set<nat>
    requires Labelled(rows)
  {
    set i: nat | i < |rows| && IsKept(rows[i])
  }

  /** Position `i` of `rows` holds a kept row. */
  predicate KeptAt(rows: seq<Row>, i: int)
    requires Labelled(rows)
  {
    0 <= i < |rows| && IsKept(rows[i])
  }

  /** Every position moved one place on. */
  function Shift(idx: seq<nat>): (r: seq<nat>)
    ensures |r| == |idx|
  {
    seq(|idx|, j requires 0 <= j < |idx| => idx[j] + 1)
  }

  /** The positions of the kept rows, in order: the reference the mask is compared with. */
  function Positions(rows: seq<Row>): seq<nat>
    requires Labelled(rows)
    decreases |rows|
  {
    if |rows| == 0 then []
    else
      var later := Shift(Positions(rows[1..]));
      if IsKept(rows[0]) then [0] + later else later
  }

  /** The selection holds, entry for entry, the rows at the listed positions. */
  lemma {:induction false} PositionsMatchSelection(rows: seq<Row>)
    requires Labelled(rows)
    ensures |Positions(rows)| == |SelectKept(rows)|
    ensures forall j :: 0 <= j < |Positions(rows)| ==>
              Positions(rows)[j] < |rows| && SelectKept(rows)[j] == rows[Positions(rows)[j]]
    decreases |rows|
  {
    if |rows| > 0 {
      PositionsMatchSelection(rows[1..]);
    }
  }

  /** The listed positions increase strictly. */
  lemma {:induction false} PositionsIncrease(rows: seq<Row>)
    requires Labelled(rows)
    ensures Increasing(Positions(rows))
    decreases |rows|
  {
    if |rows| > 0 {
      PositionsIncrease(rows[1..]);
      var later := Shift(Positions(rows[1..]));
      assert Increasing(later);
    }
  }

  /** Every kept position is listed. */
  lemma {:induction false} PositionsCoverKept(rows: seq<Row>)
    requires Labelled(rows)
    ensures forall i :: KeptAt(rows, i) ==> i in Positions(rows)
    decreases |rows|
  {
    if |rows| > 0 {
      var rest := rows[1..];
      PositionsCoverKept(rest);
      var tail := Positions(rest);
      var later := Shift(tail);
      forall i | KeptAt(rows, i) && i > 0
        ensures i in later
      {
        assert rest[i - 1] == rows[i];
        assert KeptAt(rest, i - 1);
        var j :| 0 <= j < |tail| && tail[j] == i - 1;
        assert later[j] == i;
      }
    }
  }

  /** The mask selects exactly the kept positions, in order: there is an increasing
      list of positions, covering every kept row and only kept rows, whose rows are
      the selection. */
  lemma SelectKeptPicks(rows: seq<Row>) returns (idx: seq<nat>)
    requires Labelled(rows)
    ensures |idx| == |SelectKept(rows)|
    ensures Increasing(idx)
    ensures forall j :: 0 <= j < |idx| ==> idx[j] < |rows| && SelectKept(rows)[j] == rows[idx[j]]
    ensures forall i :: KeptAt(rows, i) ==> i in idx
  {
    idx := Positions(rows);
    PositionsMatchSelection(rows);
    PositionsIncrease(rows);
    PositionsCoverKept(rows);
  }

  /** Preprocessing a frame with a sentiment column succeeds, and its rows are the
      kept rows of the input, in input order, each recoded: "positive" to 1, "negative"
      to 0, every other cell and the set of columns unchanged. No other row appears. */
  lemma PreprocessSelectsAndRecodes(t: Table) returns (idx: seq<nat>)
    requires SentimentColumn in t.columns
    ensures Labelled(t.rows)
    ensures PreprocessData(t).Success?
    ensures |idx| == |PreprocessData(t).value.rows|
    ensures Increasing(idx)
    ensures forall j :: 0 <= j < |idx| ==>
              && idx[j] < |t.rows|
              && IsKept(t.rows[idx[j]])
              && RecodedFrom(PreprocessData(t).value.rows[j], t.rows[idx[j]])
    ensures forall i :: KeptAt(t.rows, i) ==> i in idx
  {
    assert SentimentColumn in ColumnSet(t);
    var kept := SelectKept(t.rows);
    idx := SelectKeptPicks(t.rows);
    var out := PreprocessData(t).value.rows;
    assert out == ReplaceLabels(kept);
    forall j | 0 <= j < |idx|
      ensures IsKept(t.rows[idx[j]]) && RecodedFrom(out[j], t.rows[idx[j]])
    {
      assert kept[j] in kept;
    }
  }

  /** The positions listed in `idx`. */
  function Elements(idx: seq<nat>): set<nat> {
    set i | i in idx
  }

  /** A strictly increasing list has as many distinct elements as entries. */
  lemma {:induction false} IncreasingCardinality(idx: seq<nat>)
    requires Increasing(idx)
    ensures |Elements(idx)| == |idx|
    decreases |idx|
  {
    if |idx| > 0 {
      var rest := idx[1..];
      IncreasingTail(idx);
      IncreasingCardinality(rest);
      assert Elements(idx) == Elements(rest) + {idx[0]} by {
        assert idx == [idx[0]] + rest;
      }
    }
  }

  /** Dropping the head of an increasing list leaves an increasing list of larger positions. */
  lemma IncreasingTail(idx: seq<nat>)
    requires Increasing(idx) && |idx| > 0
    ensures Increasing(idx[1..])
    ensures idx[0] !in Elements(idx[1..])
  {
    var rest := idx[1..];
    forall j, k | 0 <= j < k < |rest|
      ensures rest[j] < rest[k]
    {
      assert rest[j] == idx[j + 1] && rest[k] == idx[k + 1];
    }
    forall k | 0 <= k < |rest|
      ensures rest[k] != idx[0]
    {
      assert rest[k] == idx[k + 1];
    }
  }

  /** The output has exactly as many rows as the input has rows labelled exactly
      "positive" or "negative". */
  lemma PreprocessCount(t: Table)
    requires SentimentColumn in t.columns
    ensures Labelled(t.rows)
    ensures PreprocessData(t).Success?
    ensures |PreprocessData(t).value.rows| == |KeptPositions(t.rows)|
  {
    var idx := PreprocessSelectsAndRecodes(t);
    assert Elements(idx) == KeptPositions(t.rows);
    IncreasingCardinality(idx);
  }

  /** A selection from rows none of which is kept is empty. */
  lemma {:induction false} SelectNothing(rows: seq<Row>)
    requires Labelled(rows)
    requires forall r :: r in rows ==> !IsKept(r)
    ensures SelectKept(rows) == []
    decreases |rows|
  {
    if |rows| > 0 {
      assert rows[0] in rows;
      SelectNothing(rows[1..]);
    }
  }

  /** Preprocessing twice keeps nothing: recoded labels are numbers, and the mask only
      admits the two strings. */
  lemma PreprocessTwiceKeepsNothing(t: Table)
    requires SentimentColumn in t.columns
    ensures PreprocessData(t).Success?
    ensures PreprocessData(PreprocessData(t).value) == Success(Frame(t.columns, []))
  {
    var once := PreprocessData(t).value;
    assert SentimentColumn in ColumnSet(once);
    SelectNothing(once.rows);
  }

  /** A two-column row of the worked example. */
  function ExampleRow(text: string, sentiment: Cell): Row {
    map["text" := Text(text), SentimentColumn := sentiment]
  }

  /** The worked example's input: one row each labelled "positive", "negative" and "neutral". */
  function ExampleInput(): Table {
    var f := Frame(["text", SentimentColumn],
                   [ExampleRow("a", PositiveLabel), ExampleRow("b", NegativeLabel), ExampleRow("c", Text("neutral"))]);
    assert ColumnSet(f) == {"text", SentimentColumn};
    f
  }

  /** Recoding an example row recodes its label and nothing else. */
  lemma RecodeExampleRow(text: string, sentiment: Cell)
    ensures RecodeRow(ExampleRow(text, sentiment)) == ExampleRow(text, Recode(sentiment))
  {
    var r := RecodeRow(ExampleRow(text, sentiment));
    assert r.Keys == ExampleRow(text, Recode(sentiment)).Keys;
  }

  /** The worked example: two rows survive, labelled 1 and 0, and the text column is untouched. */
  lemma PreprocessExample()
    ensures PreprocessData(ExampleInput()) == Success(Frame(["text", SentimentColumn], [ExampleRow("a", Int(1)), ExampleRow("b", Int(0))]))
  {
    var rows := ExampleInput().rows;
    assert IsKept(rows[0]) && IsKept(rows[1]) && !IsKept(rows[2]);
    assert SelectKept(rows[2..]) == [];
    assert SelectKept(rows[1..]) == [rows[1]] by {
      assert rows[1..][1..] == rows[2..];
    }
    assert SelectKept(rows) == [rows[0], rows[1]];
    RecodeExampleRow("a", PositiveLabel);
    RecodeExampleRow("b", NegativeLabel);
    var out := ReplaceLabels([rows[0], rows[1]]);
    assert out[0] == ExampleRow("a", Int(1)) && out[1] == ExampleRow("b", Int(0));
    assert out == [ExampleRow("a", Int(1)), ExampleRow("b", Int(0))];
  }
}

=== FILE: results.dfy ===
/** Python's `None` and raised exceptions, as values. */
module Results {

  /** A value that may be absent: `None` plays Python's `None`. */
  datatype Option<+T> = None | Some(value: T) {

    /** The carried value, or `default` when there is none: `os.getenv(name, default)`. */
    function GetOr(default: T): T {
      match this
      case Some(v) => v
      case None => default
    }
  }

  /** Either the value a call returned or the exception it raised instead. */
  datatype Result<+T, +E> = Success(value: T) | Failure(error: E)
}
